=== FILE: README.md ===
# Kebash arena core in Dafny

This project is a model of the player core of Kebash, a local-multiplayer arena game. Up to four
players each carry a kebab of at most three food items. The kebab is both their health and their
ammunition.

The model covers two parts:

- **The roster** (`MultiplayerManager`). It keeps the ordered player list and handles joins and
  leaves. After every join or leave it re-indexes all players and gives each one a spawn point
  from a fixed table keyed by the player count. It also provides the player-position accessor.
- **The per-player controller** (`Movement`). This covers the fixed-tick dispatch (menu freeze,
  game-over halt, shoot, charge, the "no charge" cue, locomotion with stamina regeneration), the
  charge (dash) coroutine, shooting, food pickup, being hit, falling out of the arena, the death
  and respawn sequence, and the invulnerability windows.

Coroutines are modelled as discrete events:

- the end of the charge's commit period;
- one frame of the drain loop;
- the end of the regen delay;
- the end of the shoot cooldown;
- the expiry of an invulnerability window;
- the end of a respawn delay.

An event reaches a task that is no longer running (cancelled or finished) and then does nothing.

Invulnerability windows carry a generation number. Restarting a window cancels the previous
coroutine, so only the latest generation's expiry ends invulnerability. Death sequences are never
cancelled and can overlap, so they are counted (`respawnsPending`).

Calls into the audio, death-tally and projectile collaborators appear as a list of `Signal`s
returned next to the new state. A handler that throws appears as a `Threw` signal, or for the
roster as a `Thrown` step that keeps the partly updated roster.

The roster holds the live player objects: `Roster.Deliver` applies a player event to one roster
entry in place, so the position accessor reads the player's current state.

Modules, one file each:

- `Common`: results, faults, game phase, vectors.
- `SpawnTable`: the spawn-point lookup.
- `Kebab`: the food stack and the food-to-projectile mapping.
- `Stamina`: constants and regeneration.
- `PlayerState`: the player record, signals, the invariant `Valid`, ResetForMain.
- `Combat`: food, shooting, hits, falls, death and invulnerability.
- `Charge`: the charge coroutine.
- `Tick`: FixedUpdate.
- `Events`: one step function over every event, and invariants over event sequences.
- `Roster`: join, leave, re-index, the position accessor, and sequences of joins and leaves.
- `Scenarios`: concrete play situations (a held charge, a refused charge, hits, joins).

Four behaviours of the code are easy to mistake for something else; the model keeps each as written:

- **Joining at capacity.** The join handler itself has no capacity check; it does not reject a
  fifth player and leave the roster unchanged.
  - The handler appends the player, then the re-index throws on the first spawn lookup, after it
    has already written player 0's index (`Scenarios.FifthJoinThrows`).
  - A fifth join cannot arrive in practice: the handler disables the input manager's joining at
    four players (`Roster.ChangesKeepRosterOk`).
- **Stamina lower bound.** Stamina is not kept within [0, max]. The drain loop has no
  lower clamp, so stamina can go below zero (`Scenarios.DrainOvershootsZero`). The invariant
  bounds stamina only from above.
- **Refused charge.** A refused charge (stamina at most 20) does not leave stamina unchanged:
  the same tick goes on to regenerate, so stamina rises when regeneration is allowed
  (`Scenarios.ChargeRefusedAtFifteen`).
- **Projectile mapping.** The food-to-projectile mapping sends Pepper to the eggplant projectile
  and Eggplant to the pepper projectile. The model keeps this crossing
  (`Kebab.ProjectileMappingCrossed`).

## Model

| member | source | states |
|---|---|---|
| SpawnTable.Lookup | Kebash/Assets/Scripts/Managers/MultiplayerManager.cs:54-89 | The lookup succeeds exactly for counts 0..4. Any other count fails with the unexpected-count fault. Every spawn point is 25 units up. |
| SpawnTable.LookupIsTable | Kebash/Assets/Scripts/Managers/MultiplayerManager.cs:56-88 | For every count in 0..4 and every index, the lookup returns the table's entry. An index past the row gives the row's last ("default") point. |
| SpawnTable.SpawnPointsDistinct | Kebash/Assets/Scripts/Managers/MultiplayerManager.cs:60-86 | Row n of the table has n points. In a roster of 1..4 players, no two indices share a spawn point. |
| Kebab.Push | Kebash/Assets/Scripts/Players/Movement.cs:226-237 | Pushing refuses exactly a full (three-item) kebab. Otherwise the item goes on top and the rest is unchanged. |
| Kebab.Pop | Kebash/Assets/Scripts/Players/Movement.cs:195 | Popping a non-empty kebab removes exactly its top item. Putting that item back gives the original kebab. |
| Kebab.PopUndoesPush | Kebash/Assets/Scripts/Players/Movement.cs:237 | Popping right after a successful push returns the pushed item and the previous kebab. |
| Kebab.PushKeepsBounded | Kebash/Assets/Scripts/Players/Movement.cs:226 | A push succeeds exactly below capacity and never takes the kebab above three items. |
| Kebab.ProjectileFor | Kebash/Assets/Scripts/Players/Movement.cs:421-430 | Every real food has a projectile. The Null item, and only it, is a fault. |
| Kebab.ProjectileMappingCrossed | Kebash/Assets/Scripts/Players/Movement.cs:421-430 | Each food fires its namesake projectile except Pepper and Eggplant, which fire each other's. No two foods share a projectile. |
| Stamina.Regen | Kebash/Assets/Scripts/Players/Movement.cs:336-344 | Regeneration never lowers stamina and never lifts it above the maximum. It changes stamina only when allowed and below the maximum. It adds exactly rate times dt, or stops at the maximum. |
| Stamina.RegenReachesMax | Kebash/Assets/Scripts/Players/Movement.cs:336-343 | Ticks whose total regeneration covers the gap to the maximum end exactly at the maximum. |
| Stamina.RegenAtMaxStays | Kebash/Assets/Scripts/Players/Movement.cs:338 | Any number of regeneration ticks leaves full stamina at the maximum. |
| PlayerState.ResetForMain | Kebash/Assets/Scripts/Players/Movement.cs:247-266 | The player is back at the respawn point with maximum stamina, an empty kebab and the charge hitbox off. Every other field is as it was. |
| PlayerState.ResetKeepsValid | Kebash/Assets/Scripts/Players/Movement.cs:88-91 | The reset keeps the invariant. A freshly instantiated player, whose stamina is 0, satisfies it with full stamina once Start has run the reset. |
| Combat.StartInvulnerability | Kebash/Assets/Scripts/Players/Movement.cs:452-457 | A window starts with a newer generation than any before it and with the requested length. Nothing else changes. |
| Combat.OnInvExpired | Kebash/Assets/Scripts/Players/Movement.cs:459-468 | An expiry ends invulnerability exactly when it belongs to the latest window. A cancelled window's expiry changes nothing. |
| Combat.LatestWindowWins | Kebash/Assets/Scripts/Players/Movement.cs:452-468 | After a window starts, no sequence of expiries of earlier windows ends it. Its own expiry does. |
| Combat.StaleExpiriesIgnored | Kebash/Assets/Scripts/Players/Movement.cs:452-457 | Expiries of cancelled windows leave the player state exactly as it was. |
| Combat.DeathTeleport | Kebash/Assets/Scripts/Players/Movement.cs:470-489 | Before its wait, the death sequence empties the kebab and reports exactly one death, attributed to the victim's own index, and no kill. It puts the body at the respawn point with gravity off and leaves one more respawn pending. |
| Combat.OnRespawnDelay | Kebash/Assets/Scripts/Players/Movement.cs:490-497 | At the end of a pending respawn, gravity returns, stamina is restored to the maximum, and a new two-second window starts. The body's position, the kebab and the shoot cooldown are kept. With no respawn pending, nothing changes. |
| Combat.OnFell | Kebash/Assets/Scripts/Players/Movement.cs:160-168 | A fall kills regardless of invulnerability and credits nobody. It plays the falling cue and reports the death under the faller's index. The player ends exactly as the death sequence leaves them: teleported, kebab empty, and charge state, invulnerability and shoot cooldown unchanged. |
| Combat.DieFromHit | Kebash/Assets/Scripts/Players/Movement.cs:206-215 | A fatal hit plays the die cue and reports one death under the victim's index. It credits the perpetrator exactly when there is one and it is not the victim. The player ends exactly as the death sequence leaves them. |
| Combat.OnHit | Kebash/Assets/Scripts/Players/Movement.cs:172-218 | An invulnerable or airborne player is unaffected. Otherwise a loaded kebab loses exactly its top item, only the damaged cue plays, and nothing else about the player changes apart from the new window. An empty kebab dies once under the victim's index with the right credit and ends as the death sequence leaves it. Either way a new one-second window starts and stamina, charge and cooldown are untouched. |
| Combat.AddFood | Kebash/Assets/Scripts/Players/Movement.cs:223-240 | The result is false exactly when the kebab is full, and then nothing happens. Otherwise the item is on top and the pickup cue plays. No other field changes. |
| Combat.Fire | Kebash/Assets/Scripts/Players/Movement.cs:407-433 | A real item starts the cooldown and emits exactly the shoot cue and one projectile of its kind under the shooter's index. A Null item throws after the cooldown is set, so the cooldown is stuck and no projectile is spawned. |
| Combat.ShootFood | Kebash/Assets/Scripts/Players/Movement.cs:401-437 | An empty kebab does nothing and starts no cooldown. Otherwise exactly the top item is removed and fired. Shooting never reports a death or a kill and plays only the shoot cue. |
| Combat.OnCooldown | Kebash/Assets/Scripts/Players/Movement.cs:435-436 | The end of the cooldown makes the shot ready again, except for a stuck cooldown. Nothing else changes. |
| Charge.Start | Kebash/Assets/Scripts/Players/Movement.cs:360-375 | Starting a charge takes exactly the minimum cost, turns the hitbox on and stops regeneration. A start above the threshold leaves more than the minimum cost. |
| Charge.EndCharge | Kebash/Assets/Scripts/Players/Movement.cs:384-395 | Stopping turns the hitbox off and starts the regen delay, leaving stamina as it is. The tired cue plays exactly when stamina is used up. |
| Charge.OnCommitDone | Kebash/Assets/Scripts/Players/Movement.cs:375-378 | After the commit period the drain loop runs exactly when stamina is positive and the input is held, with nothing else changed. Otherwise the charge stops exactly as the end-of-charge step does: hitbox off, dash cue stopped, regen wait started, and the tired cue when stamina is spent. |
| Charge.OnFrame | Kebash/Assets/Scripts/Players/Movement.cs:378-382 | A drain frame takes rate times dt with no lower clamp. The loop goes on exactly while stamina is positive and the input is held, changing nothing but stamina. Otherwise the charge stops exactly as the end-of-charge step does on the drained stamina, and the tired cue plays exactly when it ends at or below zero. |
| Charge.OnRegenDelay | Kebash/Assets/Scripts/Players/Movement.cs:396-398 | The end of the regen delay allows regeneration again. A charge restarted meanwhile has cancelled it, and then it changes nothing. |
| Charge.FramesAfterStopIgnored | Kebash/Assets/Scripts/Players/Movement.cs:378-382 | Frames after the drain loop has ended change nothing. |
| Charge.HeldChargeDrains | Kebash/Assets/Scripts/Players/Movement.cs:378-382 | With the input held and stamina to spare, the charge continues and stamina falls by exactly rate times elapsed time. |
| Charge.HeldChargeStopsTired | Kebash/Assets/Scripts/Players/Movement.cs:378-397 | With the input held until the stamina is used up, the charge stops by itself and plays the tired cue. Regeneration stays off until the regen delay ends. |
| Tick.Locomote | Kebash/Assets/Scripts/Players/Movement.cs:140-148 | Locomotion changes only stamina, by one regeneration step. The no-charge cue plays exactly when the charge input was held. |
| Tick.Control | Kebash/Assets/Scripts/Players/Movement.cs:124-148 | A ready shot wins over a charge, which wins over locomotion. A shot changes the player and emits signals exactly as shooting food does: the top item is popped and the cooldown set. A charge needs strictly more than 20 stamina and then changes the player exactly as a charge start does. Otherwise the tick is exactly locomotion, so no charge flag or hitbox changes. The no-charge cue plays exactly on a refused charge. Control never touches invulnerability, identity or the body, and never reports a death. |
| Tick.Sample | Kebash/Assets/Scripts/Players/Movement.cs:270-274 | The tick's grounded flag is recomputed from the body's height. Nothing else changes. |
| Tick.Dispatch | Kebash/Assets/Scripts/Players/Movement.cs:98-121 | In the menu the body is pinned to the respawn point with gravity off. At game over it is halted. A charging or airborne player gets no control. Only a grounded, non-charging player in play reaches the control dispatch. |
| Tick.FixedUpdate | Kebash/Assets/Scripts/Players/Movement.cs:93-155 | The walk cue is played or stopped first. After it, the player, the action and the remaining signals are exactly those of the per-phase dispatch on the sampled body, so in the game-over phase and on suppressed ticks gravity and everything else are kept. The kebab, stamina and cooldown change only through the control dispatch, and the cooldown only by a shot. A tick never reports a death or a kill. |
| Events.TickPreservesValid | Kebash/Assets/Scripts/Players/Movement.cs:93-155 | A tick keeps the player invariant. |
| Events.ChargeStepPreservesValid | Kebash/Assets/Scripts/Players/Movement.cs:360-398 | Each step of the charge coroutine keeps the invariant. |
| Events.FellPreservesValid | Kebash/Assets/Scripts/Players/Movement.cs:160-168 | Falling out keeps the invariant. |
| Events.HitPreservesValid | Kebash/Assets/Scripts/Players/Movement.cs:172-218 | Being hit keeps the invariant. |
| Events.PickupPreservesValid | Kebash/Assets/Scripts/Players/Movement.cs:223-240 | Picking up food keeps the invariant. |
| Events.TimersPreserveValid | Kebash/Assets/Scripts/Players/Movement.cs:435-497 | The cooldown, invulnerability and respawn timers keep the invariant. |
| Events.StepPreservesValid | Kebash/Assets/Scripts/Players/Movement.cs:93-497 | Every event keeps the invariant and leaves index, respawn point and identity to the roster. |
| Events.RunPreservesValid | Kebash/Assets/Scripts/Players/Movement.cs:26-56 | After any sequence of events the kebab holds at most three items and stamina is at most the maximum. The charge flags stay in step with the coroutine. |
| Events.StartedPlayerValid | Kebash/Assets/Scripts/Players/Movement.cs:88-91 | A player that has run Start keeps the invariant through any sequence of events. |
| Events.StepKeepsStuck | Kebash/Assets/Scripts/Players/Movement.cs:125-130 | No event clears a stuck cooldown. |
| Events.StuckCooldownIsPermanent | Kebash/Assets/Scripts/Players/Movement.cs:409-423 | After a shot throws on a Null item, the player can never shoot again. |
| Events.StepKeepsIdentity | Kebash/Assets/Scripts/Players/Movement.cs:93-497 | No player event, from any state, writes the index, respawn point or identity that the roster owns. |
| Events.StepKeepsRegenOff | Kebash/Assets/Scripts/Players/Movement.cs:366-398 | Once a charge has switched regeneration off, only the end of the regen delay switches it back on; every other event leaves it off. |
| Events.RegenOffUntilDelay | Kebash/Assets/Scripts/Players/Movement.cs:366-398 | Over any run of events without a regen-delay end (hits, falls, respawns, pickups, menu resets, refused charges), regeneration stays off. |
| Roster.IndexedIsContiguous | Kebash/Assets/Scripts/Managers/MultiplayerManager.cs:113-129 | A re-indexed roster uses exactly the indices 0..count-1, each once, and its players have pairwise distinct spawn points. |
| Roster.Reinitialize | Kebash/Assets/Scripts/Managers/MultiplayerManager.cs:113-129 | For up to four players, player i gets index i and the table's spawn point. In the menu each player is also reset (respawn position, full stamina, empty kebab, hitbox off) and nothing else about it changes; in play nothing but index and spawn point changes. Above four players the loop throws after writing only player 0's index. The list itself is never reordered. |
| Roster.Join | Kebash/Assets/Scripts/Managers/MultiplayerManager.cs:91-101 | The new player is appended. The join completes exactly below four players, and joining is then disabled exactly when the count reaches four. On completion player i gets index i and the table's spawn point, is also reset in the menu, and keeps every other field. A fifth join throws after writing only player 0's index and leaves the join gate as it was. |
| Roster.IndexOf | Kebash/Assets/Scripts/Managers/MultiplayerManager.cs:106 | The result is the position of the first player with the identity, or the count when none has it. |
| Roster.RemoveFirstSplices | Kebash/Assets/Scripts/Managers/MultiplayerManager.cs:106 | Removal cuts out exactly the first match and keeps everyone else's order. An absent player leaves the list unchanged. |
| Roster.RemoveFirstIds | Kebash/Assets/Scripts/Managers/MultiplayerManager.cs:106 | The identities after a removal are those before it with the first match cut out. |
| Roster.Leave | Kebash/Assets/Scripts/Managers/MultiplayerManager.cs:103-111 | The first occurrence of the player is removed and the rest are re-indexed without throwing. Each remaining player gets its new index and the table's spawn point, is also reset in the menu, and keeps every other field. Leaving never re-enables joining. |
| Roster.GetPlayerPosition | Kebash/Assets/Scripts/Managers/MultiplayerManager.cs:47-52 | As written, the guard rejects only indices above the count. The count itself and negative indices fail in the list indexer. |
| Roster.PlayerPosition | Kebash/Assets/Scripts/Managers/MultiplayerManager.cs:47-52 | Every index at or past the count is "no such player", and valid indices return that player's position. |
| Roster.GuardOffByOne | Kebash/Assets/Scripts/Managers/MultiplayerManager.cs:49 | The as-written accessor and the corrected one differ exactly at index equal to the count. |
| Roster.Deliver | Kebash/Assets/Scripts/Managers/MultiplayerManager.cs:17-51 | The roster holds the live players: an event for player i changes only entry i, exactly as the player step does, and the position accessor then returns the player's new position. |
| Roster.DeliverKeepsRosterOk | Kebash/Assets/Scripts/Managers/MultiplayerManager.cs:17-51 | A player event delivered to any roster entry keeps indices contiguous, identities distinct and spawn points from the table. |
| Roster.JoinKeepsRosterOk | Kebash/Assets/Scripts/Managers/MultiplayerManager.cs:91-101 | A join the input manager lets through never throws. It keeps indices contiguous, identities distinct, spawn points from the table, and joining disabled at four. |
| Roster.LeaveKeepsRosterOk | Kebash/Assets/Scripts/Managers/MultiplayerManager.cs:103-111 | A leave never throws and keeps the same roster invariant. |
| Roster.ChangeKeepsRosterOk | Kebash/Assets/Scripts/Managers/MultiplayerManager.cs:91-111 | Any single allowed join or leave never throws and keeps the roster invariant. |
| Roster.ChangesKeepRosterOk | Kebash/Assets/Scripts/Managers/MultiplayerManager.cs:91-129 | Any sequence of allowed joins and leaves never throws and never exceeds four players. Indices stay exactly 0..count-1, each player at its table spawn point. |
| Roster.EmptyRosterOk | Kebash/Assets/Scripts/Managers/MultiplayerManager.cs:17 | The initial empty roster satisfies the roster invariant. |
| Scenarios.HeldChargeRunsDry | Kebash/Assets/Scripts/Players/Movement.cs:360-398 | A charge held until it runs dry costs the minimum at once, then drains. It stops tired, and regeneration resumes only after the regen delay. |
| Scenarios.ChargeFromFifty | Kebash/Assets/Scripts/Players/Movement.cs:372-395 | From 50 stamina with tenth-of-a-second frames: 40 after the start, then 0 after four frames, where the charge stops with the tired cue. |
| Scenarios.DrainOvershootsZero | Kebash/Assets/Scripts/Players/Movement.cs:378-382 | A drain frame can take stamina below zero, here from 5 to -5, and the charge stops tired. |
| Scenarios.ChargeRefusedAtFifteen | Kebash/Assets/Scripts/Players/Movement.cs:133-148 | At 15 stamina a charge is refused: the no-charge cue plays and no charge starts. The kebab is untouched and the tick regenerates. |
| Scenarios.HitWithFullKebab | Kebash/Assets/Scripts/Players/Movement.cs:190-205 | A vulnerable, grounded player hit with three items keeps two, does not die, and becomes invulnerable. |
| Scenarios.HitWithEmptyKebab | Kebash/Assets/Scripts/Players/Movement.cs:206-217 | A player with an empty kebab hit by another player dies once, with the death reported under the victim's index, and the other player gets exactly one kill. The kebab stays empty and the one-second window starts. |
| Scenarios.TwoPlayersJoin | Kebash/Assets/Scripts/Managers/MultiplayerManager.cs:60-66 | Players A then B joining an empty roster get index 0 at (-10, 25, 6) and index 1 at (10, 25, -6). |
| Scenarios.FifthJoinThrows | Kebash/Assets/Scripts/Managers/MultiplayerManager.cs:91-101 | A join delivered to a full roster is not refused. The roster grows to five and the re-index throws. |

## Left out

- The camera average (`GetAveragePlayerPositionForCamera`) is left out. It is float arithmetic over
  positions and not part of the player core.
- Movement and turning math (lerp, slerp, the angle-dependent speed) is left out. Positions come
  into a tick as a parameter, and velocity writes appear only as the tick's `Action` (frozen,
  halted).
- Animator parameters, particles, the stamina-bar shake, `PlayStab`, kebab slot activation and
  `Debug.Log` are left out. They are presentation side effects with no effect on game state.
- Real-time waits are not modelled. Elapsed time appears only as the order of timer events and as
  the `dt` of a tick or drain frame. Time-based behaviour inside the physics engine is not
  modelled.
- Floats are modelled as exact reals, so single-precision rounding is not modelled.
- The food enumeration's definition (`PooledObjectIndex`) is not part of this model. Its members
  are taken from the shoot switch.
- Roster.Join: requires the joining player's identity to be new, because a freshly instantiated
  player object cannot already be in the list.
- Tick.FixedUpdate: the walk cue's speed threshold (squared speed above 0.02) is a boolean
  parameter, because the speed comes from the physics engine.
- Combat.DeathTeleport: the unused `takesDamage` parameter is dropped.
- Events.RunPreservesValid: bounds stamina only from above, because the code lets the drain take it
  below zero.
- Which collider hit the player, and its layer and tag, are reduced to the `HitSource` the hit
  branch extracts from them.

## Findings

| source | as written | input that shows it | evidently intended | confidence | as-written member | corrected member |
|---|---|---|---|---|---|---|
| Kebash/Assets/Scripts/Managers/MultiplayerManager.cs:49 | The guard throws "No such player" only for `playerIndex > PlayerCount`. | `playerIndex == PlayerCount`, e.g. 0 on an empty roster, passes the guard and fails in the list indexer with an out-of-range error. | `playerIndex >= PlayerCount` is "no such player". | not executed | Roster.GetPlayerPosition, Roster.GuardOffByOne | Roster.PlayerPosition |

=== FILE: charge.dfy ===
/** The charge (dash) coroutine as discrete steps: start, end of the commit
    period, each frame of the drain loop, stop, and the end of the regen
    delay. */
module Charge {
  import opened Common
  import opened Stamina
  import opened PlayerState

  /** Starts a charge: charging with the hitbox on, regeneration suppressed,
      exactly the minimum cost taken, and the commit period running. */
  function Start(p: Player): (r: Out)
    ensures r.p.charge.charging && r.p.charge.damagerActive && !r.p.charge.canRegen
    ensures r.p.charge.task == Committing
    ensures r.p.charge.stamina == p.charge.stamina - MinChargeCost
    ensures CanStartCharge(p.charge.stamina) ==> r.p.charge.stamina > MinChargeCost
    ensures r.signals == [Stop(Walk, p.index), Play(Dash, p.index)]
    ensures r.p.(charge := p.charge) == p
  {
    Out(p.(charge := ChargeState(p.charge.stamina - MinChargeCost, false, true, Committing, true)),
        [Stop(Walk, p.index), Play(Dash, p.index)])
  }

  /** Stops a charge: the hitbox off, the dash cue stopped, the tired cue
      exactly when stamina is used up, and the regen delay running. */
  function EndCharge(p: Player): (r: Out)
    ensures !r.p.charge.charging && !r.p.charge.damagerActive && r.p.charge.task == RegenWait
    ensures r.p.charge.stamina == p.charge.stamina && r.p.charge.canRegen == p.charge.canRegen
    ensures Play(Tired, p.index) in r.signals <==> p.charge.stamina <= 0.0
    ensures Stop(Dash, p.index) in r.signals
    ensures r.p.(charge := p.charge) == p
  {
    Out(p.(charge := p.charge.(charging := false, damagerActive := false, task := RegenWait)),
        [Stop(Dash, p.index)] + (if p.charge.stamina <= 0.0 then [Play(Tired, p.index)] else []))
  }

  /** The end of the commit period (the minimum cost over the cost rate,
      a tenth of a second): the drain loop continues while stamina is
      positive and the charge input is held, and stops otherwise. */
  function OnCommitDone(p: Player, held: bool): (r: Out)
    ensures !p.charge.task.Committing? ==> r == Out(p, [])
    ensures p.charge.task.Committing? ==>
      r.p.charge.stamina == p.charge.stamina
      && (r.p.charge.task.Draining? <==> p.charge.stamina > 0.0 && held)
      && (r.p.charge.task.RegenWait? <==> !(p.charge.stamina > 0.0 && held))
    ensures r.p.(charge := p.charge) == p
    ensures p.charge.task.Committing? && p.charge.stamina > 0.0 && held ==>
      r.p.charge == p.charge.(task := Draining) && r.signals == []
    ensures p.charge.task.Committing? && !(p.charge.stamina > 0.0 && held) ==> r == EndCharge(p)
  {
    if !p.charge.task.Committing? then Out(p, [])
    else if p.charge.stamina > 0.0 && held then Out(p.(charge := p.charge.(task := Draining)), [])
    else EndCharge(p)
  }

  /** One frame of the drain loop: the frame's cost is taken with no lower
      clamp, then the loop goes on only while stamina is positive and the
      input is still held. */
  function OnFrame(p: Player, dt: Duration, held: bool): (r: Out)
    ensures !p.charge.task.Draining? ==> r == Out(p, [])
    ensures p.charge.task.Draining? ==>
      r.p.charge.stamina == p.charge.stamina - dt * StaminaCostRate
      && (r.p.charge.task.Draining? <==> r.p.charge.stamina > 0.0 && held)
      && (!r.p.charge.task.Draining? ==> r.p.charge.task == RegenWait && !r.p.charge.charging)
      && (Play(Tired, p.index) in r.signals <==> r.p.charge.stamina <= 0.0)
    ensures r.p.(charge := p.charge) == p
    ensures var s := p.charge.stamina - dt * StaminaCostRate;
      p.charge.task.Draining? && s > 0.0 && held ==>
        r.p.charge == p.charge.(stamina := s) && r.signals == []
    ensures var s := p.charge.stamina - dt * StaminaCostRate;
      p.charge.task.Draining? && !(s > 0.0 && held) ==>
        r == EndCharge(p.(charge := p.charge.(stamina := s)))
  {
    if !p.charge.task.Draining? then Out(p, [])
    else
      var q := p.(charge := p.charge.(stamina := p.charge.stamina - dt * StaminaCostRate));
      if q.charge.stamina > 0.0 && held then Out(q, []) else EndCharge(q)
  }

  /** The end of the regen delay (0.15 seconds) that follows a stop. */
  function OnRegenDelay(p: Player): (r: Player)
    ensures p.charge.task.RegenWait? ==> r.charge.canRegen && r.charge.task == Idle
    ensures !p.charge.task.RegenWait? ==> r == p
    ensures r.(charge := r.charge.(canRegen := p.charge.canRegen, task := p.charge.task)) == p
  {
    if p.charge.task.RegenWait? then p.(charge := p.charge.(canRegen := true, task := Idle)) else p
  }

  // ---------------------------------------------------------------- whole runs

  function Sum(dts: seq<Duration>): real
    decreases |dts|
  {
    if |dts| == 0 then 0.0 else dts[0] + Sum(dts[1..])
  }

  /** Drain frames with the charge input held throughout. */
  function HeldFrames(p: Player, dts: seq<Duration>): Out
    decreases |dts|
  {
    if |dts| == 0 then Out(p, [])
    else
      var o := OnFrame(p, dts[0], true);
      var rest := HeldFrames(o.p, dts[1..]);
      Out(rest.p, o.signals + rest.signals)
  }

  /** Frames delivered when the drain loop is not running change nothing. */
  lemma {:induction false} FramesAfterStopIgnored(p: Player, dts: seq<Duration>)
    requires !p.charge.task.Draining?
    ensures HeldFrames(p, dts) == Out(p, [])
    decreases |dts|
  {
    if |dts| > 0 {
      FramesAfterStopIgnored(p, dts[1..]);
    }
  }

  /** Held input and enough stamina: the loop keeps charging, and stamina
      falls by exactly the cost rate times the elapsed time. */
  lemma {:induction false} HeldChargeDrains(p: Player, dts: seq<Duration>)
    requires p.charge.task.Draining?
    requires p.charge.stamina - StaminaCostRate * Sum(dts) > 0.0
    ensures HeldFrames(p, dts).p.charge.task.Draining?
    ensures HeldFrames(p, dts).p.charge.stamina == p.charge.stamina - StaminaCostRate * Sum(dts)
    decreases |dts|
  {
    if |dts| > 0 {
      var q := OnFrame(p, dts[0], true).p;
      assert StaminaCostRate * Sum(dts) == StaminaCostRate * dts[0] + StaminaCostRate * Sum(dts[1..]);
      NonNegativeSum(dts[1..]);
      HeldChargeDrains(q, dts[1..]);
    }
  }

  lemma {:induction false} NonNegativeSum(dts: seq<Duration>)
    ensures Sum(dts) >= 0.0
    decreases |dts|
  {
    if |dts| > 0 {
      NonNegativeSum(dts[1..]);
    }
  }

  /** Held input until the drain loop's total cost reaches the stamina left:
      the charge stops by itself, the tired cue plays, and regeneration
      stays off until the regen delay ends. */
  lemma {:induction false} HeldChargeStopsTired(p: Player, dts: seq<Duration>)
    requires p.charge.task.Draining? && p.charge.stamina > 0.0
    requires p.charge.stamina - StaminaCostRate * Sum(dts) <= 0.0
    ensures var r := HeldFrames(p, dts);
      !r.p.charge.charging && r.p.charge.task == RegenWait && r.p.charge.stamina <= 0.0
      && Play(Tired, p.index) in r.signals && r.p.charge.canRegen == p.charge.canRegen
    decreases |dts|
  {
    var o := OnFrame(p, dts[0], true);
    assert StaminaCostRate * Sum(dts) == StaminaCostRate * dts[0] + StaminaCostRate * Sum(dts[1..]);
    if o.p.charge.stamina <= 0.0 {
      FramesAfterStopIgnored(o.p, dts[1..]);
      assert HeldFrames(p, dts).signals == o.signals + [];
    } else {
      HeldChargeStopsTired(o.p, dts[1..]);
      var rest := HeldFrames(o.p, dts[1..]);
      assert Play(Tired, p.index) in rest.signals;
      assert HeldFrames(p, dts).signals == o.signals + rest.signals;
    }
  }
}

=== FILE: combat.dfy ===
/** Picking up food, shooting it, being hit, falling out of the arena, the
    death sequence and the invulnerability window. */
module Combat {
  import opened Common
  import opened Kebab
  import opened Stamina
  import opened PlayerState

  // ---------------------------------------------------------------- invulnerability

  /** Starts a window of `duration` seconds, cancelling the previous one: the
      new window gets a fresh generation, and only that generation's expiry
      may end it. */
  function StartInvulnerability(p: Player, duration: real): (r: Player)
    ensures r.inv.active && r.inv.gen > p.inv.gen && r.inv.window == duration
    ensures r.(inv := p.inv) == p
  {
    p.(inv := Invulnerability(true, p.inv.gen + 1, duration))
  }

  /** The expiry of the window of generation `gen`: it ends invulnerability
      only if it is the latest window; a cancelled window's expiry does nothing. */
  function OnInvExpired(p: Player, gen: nat): (r: Player)
    ensures r.inv.active <==> p.inv.active && gen != p.inv.gen
    ensures r.(inv := r.inv.(active := p.inv.active)) == p
  {
    if gen == p.inv.gen then p.(inv := p.inv.(active := false)) else p
  }

  /** The expiries of several windows, in delivery order. */
  function ExpireAll(p: Player, gens: seq<nat>): Player
    decreases |gens|
  {
    if |gens| == 0 then p else ExpireAll(OnInvExpired(p, gens[0]), gens[1..])
  }

  /** The latest window wins: once a window starts, no expiry of any earlier
      window, however many arrive, ends invulnerability; the new window's
      own expiry does. */
  lemma {:induction false} LatestWindowWins(p: Player, duration: real, stale: seq<nat>)
    requires forall k :: 0 <= k < |stale| ==> stale[k] <= p.inv.gen
    ensures ExpireAll(StartInvulnerability(p, duration), stale).inv.active
    ensures ExpireAll(StartInvulnerability(p, duration), stale) == StartInvulnerability(p, duration)
    ensures !OnInvExpired(StartInvulnerability(p, duration), p.inv.gen + 1).inv.active
  {
    StaleExpiriesIgnored(StartInvulnerability(p, duration), stale);
  }

  lemma {:induction false} StaleExpiriesIgnored(q: Player, stale: seq<nat>)
    requires forall k :: 0 <= k < |stale| ==> stale[k] < q.inv.gen
    ensures ExpireAll(q, stale) == q
    decreases |stale|
  {
    if |stale| > 0 {
      assert OnInvExpired(q, stale[0]) == q;
      StaleExpiriesIgnored(q, stale[1..]);
    }
  }

  // ---------------------------------------------------------------- death

  /** The synchronous part of deathTeleport: the kebab is drained, one death
      is reported, the body goes to the respawn point with gravity off, and
      the respawn delay starts. */
  function DeathTeleport(p: Player): (r: Out)
    ensures r.p.stack == [] && Deaths(r.signals) == 1 && KillCredits(r.signals) == []
    ensures IncrementDeath(p.index) in r.signals
    ensures r.p.rigidbody.position == ToPos(p.respawn) && !r.p.rigidbody.gravity
    ensures r.p.respawnsPending == p.respawnsPending + 1
    ensures r.p.rigidbody.onGround == p.rigidbody.onGround
    ensures r.p.(rigidbody := p.rigidbody, stack := p.stack, respawnsPending := p.respawnsPending) == p
  {
    Out(p.(stack := [],
           rigidbody := p.rigidbody.(position := ToPos(p.respawn), gravity := false),
           respawnsPending := p.respawnsPending + 1),
        [IncrementDeath(p.index)])
  }

  /** The end of a respawn delay: gravity back on, stamina restored to the
      maximum and a fresh fall window of invulnerability. With no death
      sequence waiting it does nothing. */
  function OnRespawnDelay(p: Player): (r: Player)
    ensures p.respawnsPending == 0 ==> r == p
    ensures p.respawnsPending > 0 ==>
      && r.respawnsPending == p.respawnsPending - 1 && r.rigidbody.gravity
      && r.charge.stamina == MaxStamina
      && r.inv.active && r.inv.window == FallInvDuration && r.inv.gen > p.inv.gen
      && r.charge.(stamina := p.charge.stamina) == p.charge
      && r.stack == p.stack && SameIdentity(p, r)
    ensures r.rigidbody.(gravity := p.rigidbody.gravity) == p.rigidbody
    ensures r.(respawnsPending := p.respawnsPending, rigidbody := p.rigidbody, charge := p.charge, inv := p.inv) == p
  {
    if p.respawnsPending == 0 then p
    else
      StartInvulnerability(p.(respawnsPending := p.respawnsPending - 1,
                              rigidbody := p.rigidbody.(gravity := true),
                              charge := p.charge.(stamina := MaxStamina)), FallInvDuration)
  }

  /** Falling through the fall trigger: the death sequence runs whatever the
      invulnerability, and nobody is credited. */
  function OnFell(p: Player): (r: Out)
    ensures r.p.stack == [] && Deaths(r.signals) == 1 && KillCredits(r.signals) == []
    ensures Play(Falling, p.index) in r.signals && IncrementDeath(p.index) in r.signals
    ensures r.p.inv == p.inv && r.p.charge == p.charge && SameIdentity(p, r.p)
    ensures r.p.respawnsPending == p.respawnsPending + 1
    ensures r.p == DeathTeleport(p).p
  {
    var d := DeathTeleport(p);
    var pre := [Stop(Walk, p.index), Stop(Dash, p.index), Play(Falling, p.index)];
    TallyFree(pre);
    CountsDistribute(pre, d.signals);
    Out(d.p, pre + d.signals)
  }

  // ---------------------------------------------------------------- hits

  /** What hit the player: another player's charge hitbox, or a projectile;
      both carry the index of the player responsible (-1 for none). */
  datatype HitSource = ByCharger(perpetrator: int) | ByFood(owner: int)

  function Perpetrator(src: HitSource): int {
    match src
    case ByCharger(i) => i
    case ByFood(i) => i
  }

  /** The kill a death by this hit credits: none without a perpetrator or
      when the victim hit themselves. */
  function Credit(p: Player, src: HitSource): seq<int> {
    var perp := Perpetrator(src);
    if perp != -1 && perp != p.index then [perp] else []
  }

  /** The death branch of a hit: the die cue, the death sequence, then the
      kill credit. */
  function DieFromHit(p: Player, src: HitSource): (r: Out)
    ensures r.p.stack == [] && Deaths(r.signals) == 1 && KillCredits(r.signals) == Credit(p, src)
    ensures IncrementDeath(p.index) in r.signals && Play(Die, p.index) in r.signals
    ensures r.p == DeathTeleport(p).p
    ensures r.p.respawnsPending == p.respawnsPending + 1
    ensures SameIdentity(p, r.p) && r.p.charge == p.charge
  {
    var d := DeathTeleport(p);
    var perp := Perpetrator(src);
    var kills := if perp != -1 && perp != p.index then [IncrementKills(perp)] else [];
    assert KillCredits(kills) == Credit(p, src) && Deaths(kills) == 0 by {
      if |kills| == 1 { assert kills[1..] == []; }
    }
    CountsDistribute([Play(Die, p.index)], d.signals);
    CountsDistribute([Play(Die, p.index)] + d.signals, kills);
    Out(d.p, [Play(Die, p.index)] + d.signals + kills)
  }

  /** Being hit by a damager. Ignored entirely when invulnerable or
      airborne. Otherwise a loaded kebab loses its top item and nobody dies;
      an empty one dies and credits the perpetrator. Either way a fresh
      one-second window starts. */
  function OnHit(p: Player, src: HitSource): (r: Out)
    ensures p.inv.active || !p.rigidbody.onGround ==> r == Out(p, [])
    ensures !p.inv.active && p.rigidbody.onGround ==>
      && r.p.inv.active && r.p.inv.window == HitInvDuration && r.p.inv.gen == p.inv.gen + 1
      && SameIdentity(p, r.p) && r.p.charge == p.charge && r.p.shoot == p.shoot
    ensures !p.inv.active && p.rigidbody.onGround && |p.stack| > 0 ==>
      && r.p.stack + [p.stack[|p.stack| - 1]] == p.stack
      && Deaths(r.signals) == 0 && KillCredits(r.signals) == []
      && r.p.respawnsPending == p.respawnsPending
    ensures !p.inv.active && p.rigidbody.onGround && |p.stack| == 0 ==>
      && r.p.stack == [] && Deaths(r.signals) == 1
      && KillCredits(r.signals) == Credit(p, src)
      && r.p.respawnsPending == p.respawnsPending + 1
      && IncrementDeath(p.index) in r.signals
    ensures !p.inv.active && p.rigidbody.onGround && |p.stack| > 0 ==>
      r.p.(inv := p.inv, stack := p.stack) == p && r.signals == [Play(Damaged, p.index)]
    ensures !p.inv.active && p.rigidbody.onGround && |p.stack| == 0 ==>
      r.p.(inv := p.inv) == DeathTeleport(p).p
  {
    if p.inv.active || !p.rigidbody.onGround then Out(p, [])
    else
      var o := if |p.stack| != 0 then Out(p.(stack := Pop(p.stack).rest), [Play(Damaged, p.index)])
               else DieFromHit(p, src);
      Out(StartInvulnerability(o.p, HitInvDuration), o.signals)
  }

  // ---------------------------------------------------------------- food

  /** AddFood: false and no change when the kebab is full; otherwise the
      item goes on top, a pickup cue plays and the result is true. */
  function AddFood(p: Player, f: Food): (r: (Out, bool))
    ensures !r.1 <==> |p.stack| == MaxFood
    ensures !r.1 ==> r.0 == Out(p, [])
    ensures r.1 ==> r.0.p.stack == p.stack + [f] && r.0.signals == [Play(Pickup, p.index)]
    ensures r.0.p.(stack := p.stack) == p
  {
    match Push(p.stack, f)
    case None => (Out(p, []), false)
    case Some(s) => (Out(p.(stack := s), [Play(Pickup, p.index)]), true)
  }

  /** Firing a popped item: the cooldown starts and the item's projectile
      is spawned under the shooter's index; a Null item throws instead,
      after the cooldown was set, so nothing will ever clear it. */
  function Fire(p: Player, popped: Popped): (r: Out)
    ensures r.p.stack == popped.rest && !r.p.shoot.Ready?
    ensures popped.top != Null ==>
      r.p.shoot == CoolingDown && SpawnProjectile(ProjectileFor(popped.top).value, p.index) in r.signals
    ensures popped.top == Null ==> r.p.shoot == Stuck && Threw(NullFood) in r.signals
    ensures popped.top != Null ==>
      r.signals == [Play(Shoot, p.index), SpawnProjectile(ProjectileFor(popped.top).value, p.index)]
    ensures popped.top == Null ==> r.signals == [Play(Shoot, p.index), Threw(NullFood)]
    ensures r.p.(stack := p.stack, shoot := p.shoot) == p
    ensures Deaths(r.signals) == 0 && KillCredits(r.signals) == []
    ensures forall k :: 0 <= k < |r.signals| && r.signals[k].Play? ==> r.signals[k] == Play(Shoot, p.index)
  {
    match ProjectileFor(popped.top)
    case Success(kind) =>
      TallyFree([Play(Shoot, p.index), SpawnProjectile(kind, p.index)]);
      Out(p.(stack := popped.rest, shoot := CoolingDown), [Play(Shoot, p.index), SpawnProjectile(kind, p.index)])
    case Failure(fault) =>
      TallyFree([Play(Shoot, p.index), Threw(fault)]);
      Out(p.(stack := popped.rest, shoot := Stuck), [Play(Shoot, p.index), Threw(fault)])
  }

  /** The synchronous part of shootFood. An empty kebab does nothing and
      starts no cooldown; otherwise exactly the top item is popped and fired. */
  function ShootFood(p: Player): (r: Out)
    ensures |p.stack| == 0 ==> r == Out(p, [])
    ensures |p.stack| > 0 ==>
      r.p.stack + [p.stack[|p.stack| - 1]] == p.stack && r == Fire(p, Pop(p.stack))
    ensures r.p.(stack := p.stack, shoot := p.shoot) == p
    ensures Deaths(r.signals) == 0 && KillCredits(r.signals) == []
    ensures forall k :: 0 <= k < |r.signals| && r.signals[k].Play? ==> r.signals[k] == Play(Shoot, p.index)
  {
    if |p.stack| == 0 then Out(p, []) else Fire(p, Pop(p.stack))
  }

  /** The end of the shoot cooldown; a stuck cooldown is never cleared. */
  function OnCooldown(p: Player): (r: Player)
    ensures r.shoot == (if p.shoot.CoolingDown? then Ready else p.shoot)
    ensures r.(shoot := p.shoot) == p
  {
    if p.shoot.CoolingDown? then p.(shoot := Ready) else p
  }
}

=== FILE: common.dfy ===
/** Shared vocabulary of the arena core: optional values, results that carry
    the exception the C# code would throw, the game phase and positions. */
module Common {

  datatype Option<+T> = None | Some(value: T)

  /** The exceptions the core raises. */
  datatype Fault =
    | UnexpectedPlayerCount   // spawn lookup with a player count outside 0..4
    | NoSuchPlayer            // the position accessor's own guard
    | IndexOutOfRange         // the list indexer's check behind that guard
    | NullFood                // shooting an item of type Null

  datatype Result<+T> = Success(value: T) | Failure(fault: Fault)

  /** The phase published by the game-state manager. */
  datatype Phase = Menu | GamePlay | GameOver

  /** An integral point; every spawn coordinate is a whole number. */
  datatype Vec3 = Vec3(x: int, y: int, z: int)

  /** The position of a physics body. */
  datatype Pos = Pos(x: real, y: real, z: real)

  function ToPos(v: Vec3): Pos {
    Pos(v.x as real, v.y as real, v.z as real)
  }
}

=== FILE: events.dfy ===
/** Every event that can reach a player, one step function over them, and
    the properties that hold across any sequence of events. */
module Events {
  import opened Common
  import opened Kebab
  import opened Stamina
  import opened PlayerState
  import Combat
  import Charge
  import Tick

  datatype Event =
    | FixedUpdate(phase: Phase, input: Tick.Input, body: Pos, moving: bool, dt: Duration)
    | FellOut
    | HitBy(src: Combat.HitSource)
    | FoodPicked(food: Food)
    | ChargeCommitDone(held: bool)
    | ChargeFrame(dt: Duration, held: bool)
    | RegenDelayElapsed
    | CooldownElapsed
    | InvExpired(gen: nat)
    | RespawnDelayElapsed
    | MenuReset

  function Step(p: Player, e: Event): Out {
    match e
    case FixedUpdate(phase, input, body, moving, dt) =>
      var t := Tick.FixedUpdate(p, phase, input, body, moving, dt);
      Out(t.p, t.signals)
    case FellOut => Combat.OnFell(p)
    case HitBy(src) => Combat.OnHit(p, src)
    case FoodPicked(f) => Combat.AddFood(p, f).0
    case ChargeCommitDone(held) => Charge.OnCommitDone(p, held)
    case ChargeFrame(dt, held) => Charge.OnFrame(p, dt, held)
    case RegenDelayElapsed => Out(Charge.OnRegenDelay(p), [])
    case CooldownElapsed => Out(Combat.OnCooldown(p), [])
    case InvExpired(gen) => Out(Combat.OnInvExpired(p, gen), [])
    case RespawnDelayElapsed => Out(Combat.OnRespawnDelay(p), [])
    case MenuReset => Out(ResetForMain(p), [])
  }

  /** A tick keeps the invariant. */
  lemma TickPreservesValid(p: Player, phase: Phase, input: Tick.Input, body: Pos, moving: bool, dt: Duration)
    requires Valid(p)
    ensures Valid(Tick.FixedUpdate(p, phase, input, body, moving, dt).p)
  {
    if Tick.InControl(p, phase, body) {
      var q := Tick.Sample(p, body);
      assert Valid(q);
      if input.shoot && q.shoot.Ready? {
        assert Valid(Tick.Control(q, input, dt).p);
      }
    }
  }

  /** The charge coroutine's steps keep the invariant. */
  lemma ChargeStepPreservesValid(p: Player, dt: Duration, held: bool)
    requires Valid(p)
    ensures Valid(Charge.OnCommitDone(p, held).p)
    ensures Valid(Charge.OnFrame(p, dt, held).p)
    ensures Valid(Charge.OnRegenDelay(p))
  {
  }

  /** Falling out keeps the invariant. */
  lemma FellPreservesValid(p: Player)
    requires Valid(p)
    ensures Valid(Combat.OnFell(p).p)
  {
  }

  /** Being hit keeps the invariant. */
  lemma HitPreservesValid(p: Player, src: Combat.HitSource)
    requires Valid(p)
    ensures Valid(Combat.OnHit(p, src).p)
  {
  }

  /** Picking up food keeps the invariant. */
  lemma PickupPreservesValid(p: Player, f: Food)
    requires Valid(p)
    ensures Valid(Combat.AddFood(p, f).0.p)
  {
    PushKeepsBounded(p.stack, f);
  }

  /** The timers of the shoot cooldown, the invulnerability window and the
      respawn delay keep the invariant. */
  lemma TimersPreserveValid(p: Player, gen: nat)
    requires Valid(p)
    ensures Valid(Combat.OnCooldown(p))
    ensures Valid(Combat.OnInvExpired(p, gen))
    ensures Valid(Combat.OnRespawnDelay(p))
  {
  }

  /** Every event keeps the invariant: the kebab within capacity, stamina
      at most the maximum, the charge flags in step with the charge task,
      and stamina above the minimum cost while committing and positive
      while draining. No event writes the roster-owned fields. */
  lemma StepPreservesValid(p: Player, e: Event)
    requires Valid(p)
    ensures Valid(Step(p, e).p)
    ensures SameIdentity(p, Step(p, e).p)
  {
    match e
    case FixedUpdate(phase, input, body, moving, dt) =>
      TickPreservesValid(p, phase, input, body, moving, dt);
    case FellOut =>
      FellPreservesValid(p);
    case HitBy(src) =>
      HitPreservesValid(p, src);
    case FoodPicked(f) =>
      PickupPreservesValid(p, f);
    case ChargeCommitDone(held) =>
      ChargeStepPreservesValid(p, 0.0, held);
    case ChargeFrame(dt, held) =>
      ChargeStepPreservesValid(p, dt, held);
    case RegenDelayElapsed =>
      ChargeStepPreservesValid(p, 0.0, false);
    case CooldownElapsed =>
      TimersPreserveValid(p, 0);
    case InvExpired(gen) =>
      TimersPreserveValid(p, gen);
    case RespawnDelayElapsed =>
      TimersPreserveValid(p, 0);
    case MenuReset =>
      ResetKeepsValid(p, 0, p.rigidbody.position, false);
  }

  /** No event writes the fields the roster owns, whatever the state. */
  lemma StepKeepsIdentity(p: Player, e: Event)
    ensures SameIdentity(p, Step(p, e).p)
  {
    match e
    case FixedUpdate(phase, input, body, moving, dt) =>
    case _ =>
  }

  /** A sequence of events, applied in order. */
  function Run(p: Player, es: seq<Event>): Out
    decreases |es|
  {
    if |es| == 0 then Out(p, [])
    else
      var o := Step(p, es[0]);
      var rest := Run(o.p, es[1..]);
      Out(rest.p, o.signals + rest.signals)
  }

  /** The invariant holds after any sequence of events from a valid state;
      in particular the kebab never holds more than three items and stamina
      never exceeds the maximum. */
  lemma {:induction false} RunPreservesValid(p: Player, es: seq<Event>)
    requires Valid(p)
    ensures Valid(Run(p, es).p)
    ensures |Run(p, es).p.stack| <= MaxFood && Run(p, es).p.charge.stamina <= MaxStamina
    ensures SameIdentity(p, Run(p, es).p)
    decreases |es|
  {
    if |es| > 0 {
      StepPreservesValid(p, es[0]);
      RunPreservesValid(Step(p, es[0]).p, es[1..]);
    }
  }

  /** A player that has just run Start is valid, so the above applies to
      every player from its first tick on. */
  lemma StartedPlayerValid(id: nat, at: Pos, gravity: bool, es: seq<Event>)
    ensures Valid(Run(ResetForMain(Instantiated(id, at, gravity)), es).p)
  {
    ResetKeepsValid(Instantiated(id, at, gravity), id, at, gravity);
    RunPreservesValid(ResetForMain(Instantiated(id, at, gravity)), es);
  }

  lemma StepKeepsStuck(p: Player, e: Event)
    requires p.shoot.Stuck?
    ensures Step(p, e).p.shoot.Stuck?
  {
    match e
    case FixedUpdate(phase, input, body, moving, dt) =>
    case _ =>
  }

  /** Regeneration, once switched off by a charge, stays off through every
      event except the end of the regen delay. */
  lemma StepKeepsRegenOff(p: Player, e: Event)
    requires !p.charge.canRegen && !e.RegenDelayElapsed?
    ensures !Step(p, e).p.charge.canRegen
  {
    match e
    case FixedUpdate(phase, input, body, moving, dt) =>
    case _ =>
  }

  /** From a charge's start until the regen delay that follows its stop, no
      sequence of events (hits, falls, respawns, pickups, menu resets,
      refused charges) lets stamina regenerate. */
  lemma {:induction false} RegenOffUntilDelay(p: Player, es: seq<Event>)
    requires !p.charge.canRegen
    requires forall k :: 0 <= k < |es| ==> !es[k].RegenDelayElapsed?
    ensures !Run(p, es).p.charge.canRegen
    decreases |es|
  {
    if |es| > 0 {
      StepKeepsRegenOff(p, es[0]);
      RegenOffUntilDelay(Step(p, es[0]).p, es[1..]);
    }
  }

  /** Once a shot throws on a Null item the cooldown is stuck: no event
      clears it, so the player never shoots again. */
  lemma {:induction false} StuckCooldownIsPermanent(p: Player, es: seq<Event>)
    requires p.shoot.Stuck?
    ensures Run(p, es).p.shoot.Stuck?
    decreases |es|
  {
    if |es| > 0 {
      StepKeepsStuck(p, es[0]);
      StuckCooldownIsPermanent(Step(p, es[0]).p, es[1..]);
    }
  }
}

=== FILE: kebab.dfy ===
/** The kebab: a LIFO of food items that is both the player's health and
    their ammunition. The top of the stack is the LAST element of the seq. */
module Kebab {
  import opened Common

  /** The item types a slot can hold. */
  datatype Food = Null | Lamb | Onion | Tomato | Mushroom | Pepper | Eggplant

  /** The projectile prefabs a shot can instantiate. */
  datatype Projectile = LambShot | OnionShot | TomatoShot | MushroomShot | PepperShot | EggplantShot

  const MaxFood: nat := 3

  predicate Bounded(s: seq<Food>) {
    |s| <= MaxFood
  }

  /** The stack part of adding an item: refused (None) when the stack holds
      exactly MaxFood items, otherwise the item goes on top. */
  function Push(s: seq<Food>, f: Food): (r: Option<seq<Food>>)
    ensures r.None? <==> |s| == MaxFood
    ensures r.Some? ==> |r.value| == |s| + 1 && r.value[..|s|] == s && r.value[|s|] == f
  {
    if |s| == MaxFood then None else Some(s + [f])
  }

  datatype Popped = Popped(top: Food, rest: seq<Food>)

  /** Removes the top item. */
  function Pop(s: seq<Food>): (r: Popped)
    requires |s| > 0
    ensures r.rest + [r.top] == s
    ensures |r.rest| == |s| - 1
  {
    Popped(s[|s| - 1], s[..|s| - 1])
  }

  /** Popping undoes an accepted push. */
  lemma PopUndoesPush(s: seq<Food>, f: Food)
    requires Push(s, f).Some?
    ensures Pop(Push(s, f).value) == Popped(f, s)
  {
  }

  /** An accepted push keeps a bounded stack bounded. */
  lemma PushKeepsBounded(s: seq<Food>, f: Food)
    requires Bounded(s)
    ensures Push(s, f).Some? ==> Bounded(Push(s, f).value)
    ensures Push(s, f).Some? <==> |s| < MaxFood
  {
  }

  /** The projectile named after a (non-Null) item. */
  function Namesake(f: Food): Projectile
    requires f != Null
  {
    match f
    case Lamb => LambShot
    case Onion => OnionShot
    case Tomato => TomatoShot
    case Mushroom => MushroomShot
    case Pepper => PepperShot
    case Eggplant => EggplantShot
  }

  /** The prefab a shot of item `f` instantiates; Null throws. */
  function ProjectileFor(f: Food): (r: Result<Projectile>)
    ensures r.Failure? <==> f == Null
    ensures r.Failure? ==> r.fault == NullFood
  {
    match f
    case Null => Failure(NullFood)
    case Lamb => Success(LambShot)
    case Onion => Success(OnionShot)
    case Tomato => Success(TomatoShot)
    case Mushroom => Success(MushroomShot)
    case Pepper => Success(EggplantShot)
    case Eggplant => Success(PepperShot)
  }

  /** Every item fires its namesake except Pepper and Eggplant, which fire
      each other's; so no two items share a projectile. */
  lemma ProjectileMappingCrossed(f: Food, g: Food)
    requires f != Null && g != Null
    ensures f != Pepper && f != Eggplant ==> ProjectileFor(f) == Success(Namesake(f))
    ensures f == Pepper ==> ProjectileFor(f) == Success(Namesake(Eggplant))
    ensures f == Eggplant ==> ProjectileFor(f) == Success(Namesake(Pepper))
    ensures f != g ==> ProjectileFor(f) != ProjectileFor(g)
  {
  }
}

=== FILE: player_state.dfy ===
/** The per-player state the controller owns, the signals it sends to its
    collaborators, and the invariant every event preserves. */
module PlayerState {
  import opened Common
  import opened Kebab
  import opened Stamina

  /** Where the charge coroutine is: not running, in its unconditional
      commit period, in its drain loop, or waiting out the regen delay. */
  datatype ChargeTask = Idle | Committing | Draining | RegenWait

  /** The shoot cooldown. `Stuck` is a cooldown whose coroutine threw before
      it could clear the flag, so nothing ever clears it. */
  datatype ShootTimer = Ready | CoolingDown | Stuck

  /** What the physics body exposes to the controller. */
  datatype Rigidbody = Rigidbody(
    position: Pos,
    gravity: bool,
    onGround: bool          // sampled at the start of each fixed tick
  )

  /** Stamina and the charge coroutine's flags. */
  datatype ChargeState = ChargeState(
    stamina: real,
    canRegen: bool,
    charging: bool,
    task: ChargeTask,
    damagerActive: bool     // the charge hitbox
  )

  /** The invulnerable flag and the latest window that set it. */
  datatype Invulnerability = Invulnerability(
    active: bool,
    gen: nat,               // generation of the latest window
    window: real            // its length, in seconds
  )

  datatype Player = Player(
    id: nat,                // object identity, what the roster removes by
    index: int,             // assigned by the roster, -1 before that
    respawn: Vec3,          // assigned by the roster
    rigidbody: Rigidbody,
    stack: seq<Food>,       // the kebab, top last
    charge: ChargeState,
    shoot: ShootTimer,
    inv: Invulnerability,
    respawnsPending: nat    // death sequences waiting out their respawn delay
  )

  datatype Cue = Walk | Dash | NoCharge | Shoot | Pickup | Damaged | Die | Falling | Tired

  /** Fire-and-forget calls into the audio, tally and projectile
      collaborators, and `Threw` for an exception that escapes a handler. */
  datatype Signal =
    | Play(cue: Cue, player: int)
    | Stop(cue: Cue, player: int)
    | IncrementDeath(victim: int)
    | IncrementKills(killer: int)
    | SpawnProjectile(kind: Projectile, owner: int)
    | Threw(fault: Fault)

  /** A player state after an event, with the signals the event sent. */
  datatype Out = Out(p: Player, signals: seq<Signal>)

  const HitInvDuration: real := 1.0
  const FallInvDuration: real := 2.0
  const DefaultRespawn: Vec3 := Vec3(0, 100, 0)

  /** The state of a freshly instantiated player, before Start runs: every
      field at its initialiser, stamina still at the float default 0. */
  function Instantiated(id: nat, at: Pos, gravity: bool): Player {
    Player(id, -1, DefaultRespawn, Rigidbody(at, gravity, false), [],
           ChargeState(0.0, true, false, Idle, false), Ready, Invulnerability(false, 0, 0.0), 0)
  }

  /** The grounded heuristic: strictly between -0.5 and 3 on the vertical axis. */
  predicate Grounded(y: real) {
    -0.5 < y < 3.0
  }

  /** What holds of every reachable player state. */
  ghost predicate Valid(p: Player) {
    var c := p.charge;
    && Bounded(p.stack)
    && c.stamina <= MaxStamina
    && (c.charging <==> (c.task.Committing? || c.task.Draining?))
    && (c.canRegen <==> c.task.Idle?)
    && (c.task.Committing? ==> c.stamina > MinChargeCost)
    && (c.task.Draining? ==> c.stamina > 0.0)
  }

  /** The fields only the roster writes. */
  predicate SameIdentity(p: Player, q: Player) {
    p.id == q.id && p.index == q.index && p.respawn == q.respawn
  }

  /** The number of deaths a signal list reports. */
  function Deaths(signals: seq<Signal>): nat {
    if |signals| == 0 then 0
    else (if signals[0].IncrementDeath? then 1 else 0) + Deaths(signals[1..])
  }

  /** The players a signal list credits with a kill, in order. */
  function KillCredits(signals: seq<Signal>): seq<int> {
    if |signals| == 0 then []
    else (if signals[0].IncrementKills? then [signals[0].killer] else []) + KillCredits(signals[1..])
  }

  lemma {:induction false} CountsDistribute(a: seq<Signal>, b: seq<Signal>)
    ensures Deaths(a + b) == Deaths(a) + Deaths(b)
    ensures KillCredits(a + b) == KillCredits(a) + KillCredits(b)
    decreases |a|
  {
    if |a| > 0 {
      assert (a + b)[1..] == a[1..] + b;
      CountsDistribute(a[1..], b);
    } else {
      assert a + b == b;
    }
  }

  /** A signal list with no tally call reports no death and no kill. */
  lemma {:induction false} TallyFree(signals: seq<Signal>)
    requires forall k :: 0 <= k < |signals| ==> !signals[k].IncrementDeath? && !signals[k].IncrementKills?
    ensures Deaths(signals) == 0 && KillCredits(signals) == []
    decreases |signals|
  {
    if |signals| > 0 {
      TallyFree(signals[1..]);
    }
  }

  /** ResetForMain: back to the respawn point with full stamina and an
      empty kebab, the charge hitbox off; nothing else changes. */
  function ResetForMain(p: Player): (r: Player)
    ensures r.rigidbody.position == ToPos(p.respawn)
    ensures r.charge.stamina == MaxStamina && r.stack == [] && !r.charge.damagerActive
    ensures r.rigidbody.(position := p.rigidbody.position) == p.rigidbody
    ensures r.charge.(stamina := p.charge.stamina, damagerActive := p.charge.damagerActive) == p.charge
    ensures r.(rigidbody := p.rigidbody, stack := p.stack, charge := p.charge) == p
  {
    p.(rigidbody := p.rigidbody.(position := ToPos(p.respawn)),
       charge := p.charge.(damagerActive := false, stamina := MaxStamina),
       stack := [])
  }

  /** A reset keeps a valid state valid, and Start turns a freshly
      instantiated player into a valid one. */
  lemma ResetKeepsValid(p: Player, id: nat, at: Pos, gravity: bool)
    ensures Valid(p) ==> Valid(ResetForMain(p))
    ensures Valid(ResetForMain(Instantiated(id, at, gravity)))
    ensures ResetForMain(Instantiated(id, at, gravity)).charge.stamina == MaxStamina
  {
  }
}

=== FILE: roster.dfy ===
/** The roster manager: the ordered list of players, the join and leave
    handlers, the re-index that follows each of them, and the position
    accessor. */
module Roster {
  import opened Common
  import opened PlayerState
  import opened SpawnTable
  import Events

  /** The roster and the input manager's join gate. */
  datatype Manager = Manager(players: seq<Player>, joiningDisabled: bool)

  /** A handler either returns, or throws after partly updating the roster. */
  datatype Step = Done(m: Manager) | Thrown(m: Manager, fault: Fault)

  function Ids(ps: seq<Player>): (r: seq<nat>)
    ensures |r| == |ps| && forall i :: 0 <= i < |ps| ==> r[i] == ps[i].id
  {
    seq(|ps|, i requires 0 <= i < |ps| => ps[i].id)
  }

  ghost predicate Distinct<T>(s: seq<T>) {
    forall i, j :: 0 <= i < j < |s| ==> s[i] != s[j]
  }

  /** Cutting one element out of a duplicate-free sequence, or appending a
      new one, keeps it duplicate-free. */
  lemma DistinctSplice<T>(s: seq<T>, k: nat, x: T)
    requires Distinct(s)
    ensures k < |s| ==> Distinct(s[..k] + s[k + 1..])
    ensures x !in s ==> Distinct(s + [x])
  {
    if k < |s| {
      var t := s[..k] + s[k + 1..];
      forall i, j | 0 <= i < j < |t| ensures t[i] != t[j] {
        var i' := if i < k then i else i + 1;
        var j' := if j < k then j else j + 1;
        assert t[i] == s[i'] && t[j] == s[j'];
      }
    }
  }

  /** Every player's index is its list position and its respawn point is
      the table's entry for the roster size and that index. */
  ghost predicate Indexed(ps: seq<Player>) {
    |ps| <= MaxPlayers
    && forall i :: 0 <= i < |ps| ==> ps[i].index == i && ps[i].respawn == TableEntry(|ps|, i)
  }

  /** The indices the players hold. */
  function IndexSet(ps: seq<Player>): set<int> {
    set i | 0 <= i < |ps| :: ps[i].index
  }

  /** Indexed rosters number their players exactly 0..count-1, each index
      once, and no two players of a multi-player roster share a spawn point. */
  lemma IndexedIsContiguous(ps: seq<Player>)
    requires Indexed(ps)
    ensures forall n :: n in IndexSet(ps) <==> 0 <= n < |ps|
    ensures forall i, j :: 0 <= i < j < |ps| ==> ps[i].index != ps[j].index
    ensures forall i, j :: 0 <= i < j < |ps| ==> ps[i].respawn != ps[j].respawn
  {
    forall n | 0 <= n < |ps| ensures n in IndexSet(ps) {
      assert ps[n].index == n;
    }
    forall i, j | 0 <= i < j < |ps|
      ensures ps[i].respawn != ps[j].respawn
    {
      SpawnPointsDistinct(|ps|, i, j);
    }
  }

  /** One iteration of the re-index loop once the spawn point is known. */
  function Reassign(p: Player, i: nat, spawn: Vec3, phase: Phase): Player {
    var q := p.(index := i, respawn := spawn);
    if phase == Menu then ResetForMain(q) else q
  }

  datatype Reindexed = Reindexed(players: seq<Player>, fault: Option<Fault>)

  /** `qs` is `ps` after a full re-index pass: player i has index i and the
      table's spawn point for the roster size, and in the Menu phase has
      also been reset; nothing else about any player differs. */
  ghost predicate Reseated(ps: seq<Player>, qs: seq<Player>, phase: Phase)
    requires |ps| <= MaxPlayers
  {
    && |qs| == |ps|
    && (phase == Menu ==>
          forall i :: 0 <= i < |ps| ==> qs[i] == ResetForMain(ps[i].(index := i, respawn := TableEntry(|ps|, i))))
    && (phase != Menu ==>
          forall i :: 0 <= i < |ps| ==> qs[i] == ps[i].(index := i, respawn := TableEntry(|ps|, i)))
  }

  /** ReinitializeAllPlayers. The spawn lookup fails exactly when the count
      is outside 0..4, and then it fails on the first iteration, after player
      0's index has been written; so the loop is modelled as that case or a
      full pass. A full pass gives player i index i and spawn(count, i), and
      in the Menu phase also resets them; otherwise nothing else changes. */
  function Reinitialize(ps: seq<Player>, phase: Phase): (r: Reindexed)
    ensures Ids(r.players) == Ids(ps)
    ensures r.fault.None? <==> |ps| <= MaxPlayers
    ensures r.fault.None? ==> Indexed(r.players)
    ensures r.fault.None? ==> Reseated(ps, r.players, phase)
    ensures r.fault.Some? ==>
      r.fault.value == UnexpectedPlayerCount && |ps| > 0 && r.players == ps[0 := ps[0].(index := 0)]
  {
    if |ps| <= MaxPlayers then
      var spawns := seq(|ps|, i requires 0 <= i < |ps| => Lookup(|ps|, i).value);
      assert forall i :: 0 <= i < |ps| ==> spawns[i] == TableEntry(|ps|, i) by {
        forall i | 0 <= i < |ps| ensures spawns[i] == TableEntry(|ps|, i) {
          LookupIsTable(|ps|, i);
        }
      }
      Reindexed(seq(|ps|, i requires 0 <= i < |ps| => Reassign(ps[i], i, spawns[i], phase)), None)
    else
      Reindexed(ps[0 := ps[0].(index := 0)], Some(UnexpectedPlayerCount))
  }

  /** OnPlayerJoined: the new player is appended, everyone is re-indexed,
      and joining is disabled once the count reaches four. There is no
      capacity check: a fifth player makes the re-index throw. */
  function Join(m: Manager, phase: Phase, p: Player): (r: Step)
    requires p.id !in Ids(m.players)
    ensures Ids(r.m.players) == Ids(m.players) + [p.id]
    ensures |m.players| < MaxPlayers <==> r.Done?
    ensures r.Done? ==> Indexed(r.m.players)
    ensures r.Done? ==> (r.m.joiningDisabled <==> m.joiningDisabled || |r.m.players| == MaxPlayers)
    ensures r.Thrown? ==> r.fault == UnexpectedPlayerCount && r.m.joiningDisabled == m.joiningDisabled
    ensures r.Done? ==> Reseated(m.players + [p], r.m.players, phase)
    ensures r.Thrown? ==> r.m.players == (m.players + [p])[0 := (m.players + [p])[0].(index := 0)]
  {
    var re := Reinitialize(m.players + [p], phase);
    assert Ids(m.players + [p]) == Ids(m.players) + [p.id];
    if re.fault.None? then Done(Manager(re.players, m.joiningDisabled || |re.players| == MaxPlayers))
    else Thrown(Manager(re.players, m.joiningDisabled), re.fault.value)
  }

  /** The list position of the first player with identity `id`, or the
      list's length when there is none. */
  function IndexOf(ps: seq<Player>, id: nat): (k: nat)
    ensures k <= |ps|
    ensures k < |ps| ==> ps[k].id == id
    ensures forall j :: 0 <= j < k ==> ps[j].id != id
    decreases |ps|
  {
    if |ps| == 0 then 0
    else if ps[0].id == id then 0
    else 1 + IndexOf(ps[1..], id)
  }

  /** List.Remove: scans from the front and drops the first match. */
  function RemoveFirst(ps: seq<Player>, id: nat): seq<Player>
    decreases |ps|
  {
    if |ps| == 0 then []
    else if ps[0].id == id then ps[1..]
    else [ps[0]] + RemoveFirst(ps[1..], id)
  }

  /** Removal cuts out exactly the first match, so everyone else keeps their
      relative order; with no match the list is unchanged. */
  lemma {:induction false} RemoveFirstSplices(ps: seq<Player>, id: nat)
    ensures var k := IndexOf(ps, id);
      RemoveFirst(ps, id) == if k < |ps| then ps[..k] + ps[k + 1..] else ps
    decreases |ps|
  {
    if |ps| == 0 {
    } else if ps[0].id == id {
      assert ps[..0] + ps[1..] == ps[1..];
    } else {
      var k := IndexOf(ps[1..], id);
      RemoveFirstSplices(ps[1..], id);
      ConsSplice(ps, k);
      assert IndexOf(ps, id) == k + 1;
      assert RemoveFirst(ps, id) == [ps[0]] + RemoveFirst(ps[1..], id);
      if k < |ps| - 1 {
        assert RemoveFirst(ps, id) == ps[..k + 1] + ps[k + 2..];
      } else {
        assert RemoveFirst(ps, id) == ps;
      }
    }
  }

  /** Splicing commutes with putting the head back on. */
  lemma ConsSplice<T>(s: seq<T>, k: nat)
    requires 0 < |s| && k <= |s| - 1
    ensures k < |s| - 1 ==> [s[0]] + (s[1..][..k] + s[1..][k + 1..]) == s[..k + 1] + s[k + 2..]
    ensures [s[0]] + s[1..] == s
  {
    if k < |s| - 1 {
      assert s[1..][..k] == s[1..k + 1];
      assert s[1..][k + 1..] == s[k + 2..];
      assert [s[0]] + s[1..k + 1] == s[..k + 1];
    }
  }

  /** The identities left after a removal. */
  lemma RemoveFirstIds(ps: seq<Player>, id: nat)
    ensures var k := IndexOf(ps, id);
      Ids(RemoveFirst(ps, id)) == if k < |ps| then Ids(ps)[..k] + Ids(ps)[k + 1..] else Ids(ps)
    ensures |RemoveFirst(ps, id)| <= |ps|
  {
    RemoveFirstSplices(ps, id);
    var k := IndexOf(ps, id);
    if k < |ps| {
      IdsSplice(ps, k);
    }
  }

  lemma IdsSplice(ps: seq<Player>, k: nat)
    requires k < |ps|
    ensures Ids(ps[..k] + ps[k + 1..]) == Ids(ps)[..k] + Ids(ps)[k + 1..]
  {
    var a := Ids(ps[..k] + ps[k + 1..]);
    var b := Ids(ps)[..k] + Ids(ps)[k + 1..];
    assert |a| == |b|;
    forall i | 0 <= i < |a| ensures a[i] == b[i] {
      if i < k {
        assert a[i] == ps[i].id;
      } else {
        assert a[i] == ps[i + 1].id;
      }
    }
  }

  /** OnPlayerLeft: the first occurrence of the player is removed (nothing
      if absent), everyone left is re-indexed, and the join gate is left as
      it was: leaving never re-enables joining. */
  function Leave(m: Manager, phase: Phase, id: nat): (r: Step)
    ensures var k := IndexOf(m.players, id);
      Ids(r.m.players) == if k < |m.players| then Ids(m.players)[..k] + Ids(m.players)[k + 1..] else Ids(m.players)
    ensures r.m.joiningDisabled == m.joiningDisabled
    ensures |m.players| <= MaxPlayers ==> r.Done? && Indexed(r.m.players)
    ensures r.Thrown? ==> r.fault == UnexpectedPlayerCount
    ensures var ps := RemoveFirst(m.players, id);
      |r.m.players| == |ps| && (r.Done? <==> |ps| <= MaxPlayers)
    ensures r.Done? ==> Reseated(RemoveFirst(m.players, id), r.m.players, phase)
    ensures var ps := RemoveFirst(m.players, id);
      r.Thrown? ==> |ps| > 0 && r.m.players == ps[0 := ps[0].(index := 0)]
  {
    var ps := RemoveFirst(m.players, id);
    RemoveFirstIds(m.players, id);
    var re := Reinitialize(ps, phase);
    assert Ids(re.players) == Ids(ps);
    if re.fault.None? then Done(Manager(re.players, m.joiningDisabled))
    else Thrown(Manager(re.players, m.joiningDisabled), re.fault.value)
  }

  // ---------------------------------------------------------------- accessor

  /** GetPlayerPosition as written: the guard rejects only an index above
      the count; the list indexer then rejects the count itself and any
      negative index. */
  function GetPlayerPosition(m: Manager, index: int): (r: Result<Pos>)
    ensures r.Success? <==> 0 <= index < |m.players|
    ensures r.Success? ==> r.value == m.players[index].rigidbody.position
    ensures index > |m.players| ==> r == Failure(NoSuchPlayer)
    ensures index == |m.players| || index < 0 ==> r == Failure(IndexOutOfRange)
  {
    if index > |m.players| then Failure(NoSuchPlayer)
    else if 0 <= index < |m.players| then Success(m.players[index].rigidbody.position)
    else Failure(IndexOutOfRange)
  }

  /** The accessor with the guard its message describes: every index at or
      past the count is "no such player". */
  function PlayerPosition(m: Manager, index: int): (r: Result<Pos>)
    ensures r.Success? <==> 0 <= index < |m.players|
    ensures r.Success? ==> r.value == m.players[index].rigidbody.position
    ensures index >= |m.players| ==> r == Failure(NoSuchPlayer)
  {
    if index >= |m.players| then Failure(NoSuchPlayer)
    else if index < 0 then Failure(IndexOutOfRange)
    else Success(m.players[index].rigidbody.position)
  }

  /** The guard as written lets `index == count` through, where no player
      exists; the two accessors differ exactly there. */
  lemma GuardOffByOne(m: Manager, index: int)
    ensures GetPlayerPosition(m, |m.players|) == Failure(IndexOutOfRange)
    ensures PlayerPosition(m, |m.players|) == Failure(NoSuchPlayer)
    ensures GetPlayerPosition(m, index) != PlayerPosition(m, index) <==> index == |m.players|
  {
  }

  // ---------------------------------------------------------------- live players

  /** The roster holds the live player objects, so an event delivered to
      player `i` changes that entry in place, and the accessor then reads
      the new position. The event's signals are those of the player step. */
  function Deliver(m: Manager, i: nat, e: Events.Event): (r: Manager)
    requires i < |m.players|
    ensures |r.players| == |m.players| && r.joiningDisabled == m.joiningDisabled
    ensures r.players[i] == Events.Step(m.players[i], e).p
    ensures forall j :: 0 <= j < |m.players| && j != i ==> r.players[j] == m.players[j]
    ensures GetPlayerPosition(r, i) == Success(Events.Step(m.players[i], e).p.rigidbody.position)
  {
    m.(players := m.players[i := Events.Step(m.players[i], e).p])
  }

  /** An event delivered to one player leaves the roster's invariant intact:
      no player event writes an index, a respawn point or an identity. */
  lemma DeliverKeepsRosterOk(m: Manager, i: nat, e: Events.Event)
    requires RosterOk(m) && i < |m.players|
    ensures RosterOk(Deliver(m, i, e))
    ensures Ids(Deliver(m, i, e).players) == Ids(m.players)
  {
    Events.StepKeepsIdentity(m.players[i], e);
    var r := Deliver(m, i, e);
    assert Ids(r.players) == Ids(m.players);
  }

  // ---------------------------------------------------------------- sequences of changes

  datatype Change = Joined(p: Player, phase: Phase) | Left(id: nat, phase: Phase)

  /** The input manager delivers a join only while joining is enabled, and
      a joining player is a new object. */
  predicate Allowed(m: Manager, c: Change) {
    match c
    case Joined(p, _) => !m.joiningDisabled && p.id !in Ids(m.players)
    case Left(_, _) => true
  }

  function ApplyOne(m: Manager, c: Change): Step
    requires Allowed(m, c)
  {
    match c
    case Joined(p, phase) => Join(m, phase, p)
    case Left(id, phase) => Leave(m, phase, id)
  }

  ghost predicate Admissible(m: Manager, cs: seq<Change>)
    decreases |cs|
  {
    |cs| == 0 || (Allowed(m, cs[0]) && Admissible(ApplyOne(m, cs[0]).m, cs[1..]))
  }

  /** A sequence of changes; a handler that throws leaves its partial
      roster behind and the first fault is reported. */
  function Apply(m: Manager, cs: seq<Change>): Step
    requires Admissible(m, cs)
    decreases |cs|
  {
    if |cs| == 0 then Done(m)
    else
      var s := ApplyOne(m, cs[0]);
      var rest := Apply(s.m, cs[1..]);
      if s.Thrown? then Thrown(rest.m, s.fault) else rest
  }

  /** What holds between roster changes. */
  ghost predicate RosterOk(m: Manager) {
    Indexed(m.players) && Distinct(Ids(m.players))
    && (|m.players| == MaxPlayers ==> m.joiningDisabled)
  }

  /** An allowed join keeps the roster healthy and does not throw. */
  lemma JoinKeepsRosterOk(m: Manager, phase: Phase, p: Player)
    requires RosterOk(m) && !m.joiningDisabled && p.id !in Ids(m.players)
    ensures Join(m, phase, p).Done? && RosterOk(Join(m, phase, p).m)
  {
    DistinctSplice(Ids(m.players), |m.players|, p.id);
  }

  /** A leave keeps the roster healthy and does not throw. */
  lemma LeaveKeepsRosterOk(m: Manager, phase: Phase, id: nat)
    requires RosterOk(m)
    ensures Leave(m, phase, id).Done? && RosterOk(Leave(m, phase, id).m)
  {
    DistinctSplice(Ids(m.players), IndexOf(m.players, id), id);
  }

  /** One allowed change keeps the roster healthy and never throws. */
  lemma ChangeKeepsRosterOk(m: Manager, c: Change)
    requires RosterOk(m) && Allowed(m, c)
    ensures ApplyOne(m, c).Done? && RosterOk(ApplyOne(m, c).m)
  {
    match c
    case Joined(p, phase) => JoinKeepsRosterOk(m, phase, p);
    case Left(id, phase) => LeaveKeepsRosterOk(m, phase, id);
  }

  /** Starting from an empty roster, any sequence of joins and leaves the
      input manager can deliver never throws, never exceeds four players,
      and leaves indices exactly 0..count-1 with each player at its table
      spawn point. */
  lemma {:induction false} ChangesKeepRosterOk(m: Manager, cs: seq<Change>)
    requires RosterOk(m) && Admissible(m, cs)
    ensures Apply(m, cs).Done? && RosterOk(Apply(m, cs).m)
    ensures |Apply(m, cs).m.players| <= MaxPlayers
    decreases |cs|
  {
    if |cs| > 0 {
      ChangeKeepsRosterOk(m, cs[0]);
      ChangesKeepRosterOk(ApplyOne(m, cs[0]).m, cs[1..]);
    }
  }

  /** The empty roster, joining enabled. */
  lemma EmptyRosterOk()
    ensures RosterOk(Manager([], false))
  {
  }
}

=== FILE: scenarios.dfy ===
/** Concrete play situations, checked against the model. */
module Scenarios {
  import opened Common
  import opened Kebab
  import opened Stamina
  import opened PlayerState
  import Combat
  import Charge
  import Tick
  import Roster
  import SpawnTable

  /** A charge started with the input held throughout: the start costs
      exactly the minimum, the commit period hands over to the drain loop,
      and once the frames have cost the rest the charge stops by itself with
      the tired cue. Regeneration stays off until the regen delay ends. */
  lemma HeldChargeRunsDry(p: Player, dts: seq<Duration>)
    requires Valid(p) && !p.charge.charging && CanStartCharge(p.charge.stamina)
    requires (p.charge.stamina - MinChargeCost) - StaminaCostRate * Charge.Sum(dts) <= 0.0
    ensures var started := Charge.Start(p).p;
      var committed := Charge.OnCommitDone(started, true).p;
      var r := Charge.HeldFrames(committed, dts);
      && started.charge.stamina == p.charge.stamina - MinChargeCost
      && committed.charge.task.Draining?
      && !r.p.charge.charging && Play(Tired, p.index) in r.signals
      && (forall dt: Duration :: Regen(r.p.charge.stamina, r.p.charge.canRegen, dt) == r.p.charge.stamina)
      && Charge.OnRegenDelay(r.p).charge.canRegen
  {
    var started := Charge.Start(p).p;
    var committed := Charge.OnCommitDone(started, true).p;
    Charge.HeldChargeStopsTired(committed, dts);
  }

  /** From 50 stamina with frames of a tenth of a second: 40 after the
      start, then 30, 20, 10 and 0, where the charge stops tired. */
  lemma ChargeFromFifty(p: Player)
    requires Valid(p) && !p.charge.charging && p.charge.stamina == 50.0
    ensures var started := Charge.Start(p).p;
      var r := Charge.HeldFrames(Charge.OnCommitDone(started, true).p, [0.1, 0.1, 0.1, 0.1]);
      started.charge.stamina == 40.0 && !r.p.charge.charging && r.p.charge.stamina == 0.0 && Play(Tired, p.index) in r.signals
  {
    var started := Charge.Start(p).p;
    var committed := Charge.OnCommitDone(started, true).p;
    assert Charge.Sum([0.1, 0.1, 0.1, 0.1]) == 0.4 by {
      assert [0.1, 0.1, 0.1, 0.1][1..] == [0.1, 0.1, 0.1];
      assert [0.1, 0.1, 0.1][1..] == [0.1, 0.1];
      assert [0.1, 0.1][1..] == [0.1];
    }
    Charge.HeldChargeStopsTired(committed, [0.1, 0.1, 0.1, 0.1]);
  }

  /** The drain has no lower clamp: a tenth of a second of draining from 5
      stamina leaves -5, and the charge stops tired. The invariant bounds
      stamina only from above. */
  lemma DrainOvershootsZero(p: Player)
    requires p.charge.task.Draining? && p.charge.stamina == 5.0
    ensures var r := Charge.OnFrame(p, 0.1, true);
      r.p.charge.stamina == -5.0 && r.p.charge.task == RegenWait && !r.p.charge.charging
      && Play(Tired, p.index) in r.signals
  {
  }

  /** Charging at 15 stamina (threshold 20) is refused: the no-charge cue
      plays, no charge starts, the kebab is untouched and the tick goes on
      to move and regenerate. */
  lemma ChargeRefusedAtFifteen(p: Player, body: Pos, moving: bool, dt: Duration)
    requires Valid(p) && !p.charge.charging && p.charge.stamina == 15.0 && p.shoot.Ready?
    requires Grounded(body.y)
    ensures var r := Tick.FixedUpdate(p, GamePlay, Tick.Input(false, false, true, false), body, moving, dt);
      && r.action == Tick.Locomotion(true, false) && !r.p.charge.charging
      && Play(NoCharge, p.index) in r.signals
      && r.p.stack == p.stack && r.p.charge.stamina == Regen(15.0, p.charge.canRegen, dt)
  {
  }

  /** A grounded, vulnerable player holding three items and hit once keeps
      two and does not die. */
  lemma HitWithFullKebab(p: Player, src: Combat.HitSource)
    requires |p.stack| == 3 && !p.inv.active && p.rigidbody.onGround
    ensures var r := Combat.OnHit(p, src);
      |r.p.stack| == 2 && Deaths(r.signals) == 0 && r.p.inv.active
  {
  }

  /** A player with an empty kebab hit by another player dies once, the
      other player is credited once, the kebab stays empty and the one
      second window starts. */
  lemma HitWithEmptyKebab(p: Player, killer: int)
    requires |p.stack| == 0 && !p.inv.active && p.rigidbody.onGround
    requires killer != -1 && killer != p.index
    ensures var r := Combat.OnHit(p, Combat.ByCharger(killer));
      r.p.stack == [] && Deaths(r.signals) == 1 && KillCredits(r.signals) == [killer]
      && IncrementDeath(p.index) in r.signals
      && r.p.inv.active && r.p.inv.window == HitInvDuration
  {
  }

  /** Two players joining an empty roster in order A, B: A gets index 0 at
      (-10, 25, 6) and B index 1 at (10, 25, -6). */
  lemma TwoPlayersJoin(a: Player, b: Player, phase: Phase)
    requires a.id != b.id
    ensures var first := Roster.Join(Roster.Manager([], false), phase, a);
      first.Done? && b.id !in Roster.Ids(first.m.players)
      && var second := Roster.Join(first.m, phase, b);
      second.Done? && |second.m.players| == 2
      && second.m.players[0].id == a.id && second.m.players[0].index == 0
      && second.m.players[0].respawn == Vec3(-10, 25, 6)
      && second.m.players[1].id == b.id && second.m.players[1].index == 1
      && second.m.players[1].respawn == Vec3(10, 25, -6)
  {
    var first := Roster.Join(Roster.Manager([], false), phase, a);
    assert Roster.Ids(first.m.players) == [a.id];
    var second := Roster.Join(first.m, phase, b);
    assert Roster.Ids(second.m.players) == [a.id, b.id];
  }

  /** A join delivered with four players present is not refused by the
      handler: the roster grows to five and the re-index throws. */
  lemma FifthJoinThrows(m: Roster.Manager, phase: Phase, p: Player)
    requires |m.players| == 4 && p.id !in Roster.Ids(m.players)
    ensures var r := Roster.Join(m, phase, p);
      r.Thrown? && r.fault == UnexpectedPlayerCount && |r.m.players| == 5
  {
    var r := Roster.Join(m, phase, p);
    assert |Roster.Ids(r.m.players)| == 5;
  }
}

=== FILE: spawn_table.dfy ===
/** The fixed spawn points, keyed on the roster size and a player's index. */
module SpawnTable {
  import opened Common

  const SpawnYOffset: int := 25
  const MaxPlayers: nat := 4

  /** The spawn point of player `index` when `count` players are present.
      Each inner switch sends every index past the listed ones, negative
      ones included, to its `default` (last) entry; a count the outer
      switch does not list throws. */
  function Lookup(count: int, index: int): (r: Result<Vec3>)
    ensures r.Success? <==> 0 <= count <= MaxPlayers
    ensures r.Failure? ==> r.fault == UnexpectedPlayerCount
    ensures r.Success? ==> r.value.y == SpawnYOffset
  {
    match count
    case 0 => Success(Vec3(0, SpawnYOffset, 0))
    case 1 => Success(Vec3(0, SpawnYOffset, 0))
    case 2 =>
      Success(if index == 0 then Vec3(-10, SpawnYOffset, 6)
              else Vec3(10, SpawnYOffset, -6))
    case 3 =>
      Success(if index == 0 then Vec3(0, SpawnYOffset, 6)
              else if index == 1 then Vec3(-10, SpawnYOffset, -3)
              else Vec3(10, SpawnYOffset, -3))
    case 4 =>
      Success(if index == 0 then Vec3(-10, SpawnYOffset, 6)
              else if index == 1 then Vec3(-10, SpawnYOffset, -6)
              else if index == 2 then Vec3(10, SpawnYOffset, 6)
              else Vec3(10, SpawnYOffset, -6))
    case _ => Failure(UnexpectedPlayerCount)
  }

  /** The published table, one row per roster size, entries in index order. */
  const Table: seq<seq<Vec3>> := [
    [Vec3(0, 25, 0)],
    [Vec3(0, 25, 0)],
    [Vec3(-10, 25, 6), Vec3(10, 25, -6)],
    [Vec3(0, 25, 6), Vec3(-10, 25, -3), Vec3(10, 25, -3)],
    [Vec3(-10, 25, 6), Vec3(-10, 25, -6), Vec3(10, 25, 6), Vec3(10, 25, -6)]
  ]

  /** A row entry, where an index outside the row reads the row's last entry. */
  function TableEntry(count: nat, index: int): Vec3
    requires count <= MaxPlayers
  {
    var row := Table[count];
    if 0 <= index < |row| then row[index] else row[|row| - 1]
  }

  /** The lookup agrees with the table for every index of every supported
      roster size, and fails for every other size. */
  lemma LookupIsTable(count: int, index: int)
    ensures 0 <= count <= MaxPlayers ==> Lookup(count, index) == Success(TableEntry(count, index))
    ensures !(0 <= count <= MaxPlayers) ==> Lookup(count, index) == Failure(UnexpectedPlayerCount)
  {
  }

  /** Every row of two or more players gives each player its own point, and
      row `count` lists exactly `count` points. */
  lemma SpawnPointsDistinct(count: nat, i: int, j: int)
    requires 1 <= count <= MaxPlayers
    requires 0 <= i < j < count
    ensures |Table[count]| == count
    ensures TableEntry(count, i) != TableEntry(count, j)
  {
  }
}

=== FILE: stamina.dfy ===
/** The stamina resource: regeneration clamped to the maximum, the fixed
    cost of starting a charge and the unclamped drain while charging. */
module Stamina {

  const MaxStamina: real := 100.0
  const MinChargeCost: real := 10.0
  const MinStaminaToStart: real := 20.0
  const StaminaCostRate: real := 100.0
  const StaminaRegenRate: real := 40.0

  /** A frame or tick length; the engine never reports a negative one. */
  type Duration = r: real | 0.0 <= r

  /** One tick of regeneration: only when allowed and below the maximum,
      and never past the maximum. */
  function Regen(s: real, canRegen: bool, dt: Duration): (r: real)
    ensures s <= r
    ensures s <= MaxStamina ==> r <= MaxStamina
    ensures r != s ==> canRegen && s < MaxStamina
    ensures canRegen && s < MaxStamina ==> r == MaxStamina || r == s + dt * StaminaRegenRate
    ensures canRegen && s + dt * StaminaRegenRate <= MaxStamina ==> r == s + dt * StaminaRegenRate
  {
    if canRegen && s < MaxStamina then
      var t := s + dt * StaminaRegenRate;
      if t < MaxStamina then t else MaxStamina
    else s
  }

  /** A charge may start only with strictly more than the threshold. */
  predicate CanStartCharge(s: real) {
    s > MinStaminaToStart
  }

  /** `n` consecutive ticks of regeneration. */
  function RegenTicks(s: real, dt: Duration, n: nat): real
    decreases n
  {
    if n == 0 then s else RegenTicks(Regen(s, true, dt), dt, n - 1)
  }

  /** Enough ticks of regeneration refill stamina exactly to the maximum. */
  lemma {:induction false} RegenReachesMax(s: real, dt: Duration, n: nat)
    requires s <= MaxStamina
    requires (n as real) * dt * StaminaRegenRate >= MaxStamina - s
    ensures RegenTicks(s, dt, n) == MaxStamina
    decreases n
  {
    if n == 0 {
    } else {
      var s' := Regen(s, true, dt);
      if s' == MaxStamina {
        RegenAtMaxStays(dt, n - 1);
      } else {
        assert s' == s + dt * StaminaRegenRate;
        assert (n as real) * dt * StaminaRegenRate == ((n - 1) as real) * dt * StaminaRegenRate + dt * StaminaRegenRate;
        RegenReachesMax(s', dt, n - 1);
      }
    }
  }

  /** Regeneration never moves a full bar. */
  lemma {:induction false} RegenAtMaxStays(dt: Duration, n: nat)
    ensures RegenTicks(MaxStamina, dt, n) == MaxStamina
    decreases n
  {
    if n > 0 {
      RegenAtMaxStays(dt, n - 1);
    }
  }
}

=== FILE: tick.dfy ===
/** FixedUpdate: one simulation tick of a player, dispatching by priority
    phase, then shoot, then charge, then the no-charge cue, then locomotion. */
module Tick {
  import opened Common
  import opened Kebab
  import opened Stamina
  import opened PlayerState
  import Combat
  import Charge

  /** One tick of the player's input: whether the move and turn sticks are
      off centre, and the charge and shoot buttons. */
  datatype Input = Input(move: bool, turn: bool, charge: bool, shoot: bool)

  /** Which branch the tick took. `Frozen` pins the body to its respawn
      point with zero velocity and gravity off; `Halted` zeroes horizontal
      velocity; `Suppressed` is a charging or airborne player; `Locomotion`
      runs move, turn and regeneration, `turned` saying whether some stick
      gave the turn a target. */
  datatype Action = Frozen | Halted | Suppressed | Shot | ChargeStarted
                  | Locomotion(noCharge: bool, turned: bool)

  datatype TickOut = TickOut(p: Player, action: Action, signals: seq<Signal>)

  /** Player control runs only in GamePlay, on the ground and not charging. */
  predicate InControl(p: Player, phase: Phase, body: Pos) {
    phase == GamePlay && !p.charge.charging && Grounded(body.y)
  }

  /** Locomotion: move, turn and regenerate, after the no-charge cue when
      the charge input was held. Only stamina changes, and only upward. */
  function Locomote(q: Player, input: Input, dt: Duration): (r: TickOut)
    ensures r.action == Locomotion(input.charge, input.move || input.turn)
    ensures r.p.charge.stamina == Regen(q.charge.stamina, q.charge.canRegen, dt)
    ensures r.p.(charge := r.p.charge.(stamina := q.charge.stamina)) == q
    ensures Play(NoCharge, q.index) in r.signals <==> input.charge
    ensures Deaths(r.signals) == 0 && KillCredits(r.signals) == []
  {
    var cue := if input.charge then [Play(NoCharge, q.index)] else [];
    TallyFree(cue);
    TickOut(q.(charge := q.charge.(stamina := Regen(q.charge.stamina, q.charge.canRegen, dt))),
            Locomotion(input.charge, input.move || input.turn), cue)
  }

  /** The dispatch once the player has control: a shot off cooldown wins,
      even with nothing to shoot; then a charge, which needs strictly more
      stamina than the threshold; otherwise locomotion, with the no-charge
      cue when the charge was refused. */
  function Control(q: Player, input: Input, dt: Duration): (r: TickOut)
    ensures input.shoot && q.shoot.Ready? ==>
      r.action == Shot && r.p.charge == q.charge
      && |r.p.stack| == (if |q.stack| == 0 then 0 else |q.stack| - 1)
    ensures !(input.shoot && q.shoot.Ready?) && input.charge && q.charge.stamina > MinStaminaToStart ==>
      r.action == ChargeStarted && r.p.charge.charging
      && r.p.charge.stamina == q.charge.stamina - MinChargeCost
      && r.p.stack == q.stack
    ensures !(input.shoot && q.shoot.Ready?) && !(input.charge && q.charge.stamina > MinStaminaToStart) ==>
      r.action == Locomotion(input.charge, input.move || input.turn) && r.p.stack == q.stack
      && q.charge.stamina <= r.p.charge.stamina
      && (q.charge.stamina <= MaxStamina ==> r.p.charge.stamina <= MaxStamina)
      && (r.p.charge.stamina != q.charge.stamina ==> q.charge.canRegen)
    ensures input.shoot && q.shoot.Ready? ==>
      r.p == Combat.ShootFood(q).p && r.signals == Combat.ShootFood(q).signals
    ensures !(input.shoot && q.shoot.Ready?) && input.charge && q.charge.stamina > MinStaminaToStart ==>
      r.p == Charge.Start(q).p
    ensures !(input.shoot && q.shoot.Ready?) && !(input.charge && q.charge.stamina > MinStaminaToStart) ==>
      r == Locomote(q, input, dt)
    ensures Play(NoCharge, q.index) in r.signals <==> r.action.Locomotion? && r.action.noCharge
    ensures Play(NoCharge, q.index) in r.signals ==> input.charge && q.charge.stamina <= MinStaminaToStart
    ensures Deaths(r.signals) == 0 && KillCredits(r.signals) == []
    ensures SameIdentity(q, r.p) && r.p.inv == q.inv && r.p.rigidbody == q.rigidbody
    ensures r.p.respawnsPending == q.respawnsPending
    ensures r.p.shoot == q.shoot || (r.action == Shot && q.shoot.Ready?)
  {
    if input.shoot && q.shoot.Ready? then
      var o := Combat.ShootFood(q);
      assert Play(NoCharge, q.index) !in o.signals;
      TickOut(o.p, Shot, o.signals)
    else if input.charge && CanStartCharge(q.charge.stamina) then
      var o := Charge.Start(q);
      TallyFree(o.signals);
      TickOut(o.p, ChargeStarted, o.signals)
    else
      Locomote(q, input, dt)
  }

  /** The body as the tick samples it: physics has moved it to `body`,
      and the grounded flag is recomputed from the new height. */
  function Sample(p: Player, body: Pos): (q: Player)
    ensures q.rigidbody.position == body && q.rigidbody.onGround == Grounded(body.y)
    ensures q.rigidbody.gravity == p.rigidbody.gravity && q.(rigidbody := p.rigidbody) == p
  {
    p.(rigidbody := p.rigidbody.(position := body, onGround := Grounded(body.y)))
  }

  /** The branch a sampled player takes: frozen in the menu, halted at game
      over, suppressed while charging or airborne, else player control. */
  function Dispatch(q: Player, phase: Phase, input: Input, dt: Duration): (r: TickOut)
    ensures phase == Menu ==>
      r == TickOut(q.(rigidbody := q.rigidbody.(position := ToPos(q.respawn), gravity := false)), Frozen, [])
    ensures phase == GameOver ==> r == TickOut(q, Halted, [])
    ensures phase == GamePlay && (q.charge.charging || !q.rigidbody.onGround) ==> r == TickOut(q, Suppressed, [])
    ensures phase == GamePlay && !q.charge.charging && q.rigidbody.onGround ==> r == Control(q, input, dt)
  {
    if phase == Menu then
      TickOut(q.(rigidbody := q.rigidbody.(position := ToPos(q.respawn), gravity := false)), Frozen, [])
    else if phase == GameOver then
      TickOut(q, Halted, [])
    else if q.charge.charging || !q.rigidbody.onGround then
      TickOut(q, Suppressed, [])
    else
      Control(q, input, dt)
  }

  /** One tick, given the phase, the input, the body's position as physics
      left it, whether the body is moving (the walk cue's threshold) and
      the tick length. Only Control's branches touch the kebab or stamina. */
  function FixedUpdate(p: Player, phase: Phase, input: Input, body: Pos, moving: bool, dt: Duration): (r: TickOut)
    ensures r.p.rigidbody.onGround == Grounded(body.y) && SameIdentity(p, r.p)
    ensures |r.signals| > 0 && r.signals[0] == (if moving && Grounded(body.y) then Play(Walk, p.index) else Stop(Walk, p.index))
    ensures phase == Menu ==>
      r.action == Frozen && r.p.rigidbody.position == ToPos(p.respawn) && !r.p.rigidbody.gravity
      && r.p.stack == p.stack && r.p.charge == p.charge
    ensures phase == GameOver ==> r.action == Halted && r.p.stack == p.stack && r.p.charge == p.charge
    ensures phase == GamePlay && !InControl(p, phase, body) ==>
      r.action == Suppressed && r.p.stack == p.stack && r.p.charge == p.charge
    ensures InControl(p, phase, body) ==>
      var c := Control(Sample(p, body), input, dt);
      r.p == c.p && r.action == c.action && r.signals[1..] == c.signals
    ensures var d := Dispatch(Sample(p, body), phase, input, dt);
      r.p == d.p && r.action == d.action && r.signals[1..] == d.signals
    ensures Deaths(r.signals) == 0 && KillCredits(r.signals) == []
    ensures r.p.inv == p.inv && r.p.respawnsPending == p.respawnsPending
    ensures r.p.shoot == p.shoot || (r.action == Shot && p.shoot.Ready?)
  {
    var q := Sample(p, body);
    var walk := if moving && q.rigidbody.onGround then Play(Walk, p.index) else Stop(Walk, p.index);
    var d := Dispatch(q, phase, input, dt);
    TallyFree([walk]);
    CountsDistribute([walk], d.signals);
    TickOut(d.p, d.action, [walk] + d.signals)
  }
}
